=== FILE: README.md ===
# Self-monitoring guard of the browser SDK, in Dafny

The browser SDK watches its own code for faults so that a bug in the
instrumentation never breaks the host page. `src/core/monitoring.ts` holds one
global record (`monitoringConfiguration`: an optional `batch`, `debugMode`,
`maxMessagesPerPage`, `sentMessageCount`), three lifecycle operations
(`startMonitoring`, `resetMonitoring`, `setDebugMode`) and two interception
wrappers: `monitor(fn)`, which swallows every fault `fn` throws and reports it
under a per-page budget, and the `@monitored` method decorator, which does the
same only while a batch is present.

The model is a functional state machine:

- `faults.dfy` (module `Faults`): faults, the wrapped function's outcome
  (`Returns(v)` / `Throws(e)`), a collaborator's result (`Ok` / `Failed`) and
  what the caller of a guarded function observes (`Value(v)`, `Undefined`,
  `Raised(e)`).
- `state.dfy` (module `MonitoringState`): the global record as an immutable
  `State`, the configuration fields read by `startMonitoring`, the three
  lifecycle operations and the rate limit (`MayReport`: a batch is present and
  `sentMessageCount < maxMessagesPerPage`).
- `monitor.dfy` (module `Guard`): the record builder, the inner try block
  (`ReportFault`), `monitor` (`Monitor`) and `@monitored` (`Monitored`). A call
  is a pure step returning the next state, the caller-visible completion, the
  records handed to `batch.add` and the faults written to the debug console.
  The collaborators `computeStackTrace`, `formatStackTraceToContext` and
  `batch.add` are fields of an `Env` value: arbitrary functions that may throw.
- `runs.dfy` (module `Runs`): sequences of guarded calls (`Run`), the budget
  theorem and the capped scenario of the test suite.

Points where the code is followed exactly:

- The counter is raised before the stack trace is computed and before `add`
  is called (`src/core/monitoring.ts:63-65`), so the budget counts report
  attempts, not delivered records. If `computeStackTrace` or
  `formatStackTraceToContext` throws (`src/core/monitoring.ts:64`, `:69`),
  the budget unit is consumed, `add` is never called, and no fallback record
  is built. If `add` itself throws, that still counts as one `add` call.
- `resetMonitoring` only drops the batch; only a successful `startMonitoring`
  resets the counter. `startMonitoring` leaves `debugMode` as it was.
- An absent or empty `monitoringEndpoint` makes `startMonitoring` a no-op
  (JavaScript truthiness at `src/core/monitoring.ts:17`).
- Neither `logErrorIfDebug` call is inside a try block: the one at
  `src/core/monitoring.ts:57` runs in the outer catch before the inner try,
  and the one at `:73` runs in the inner catch. See "Left out".

## Model

| member | source | states |
|---|---|---|
| MonitoringState.InitialIsValid | src/core/monitoring.ts:9-14 | the record starts inactive, out of debug mode, within its (zero) ceiling |
| MonitoringState.NewBatch | src/core/monitoring.ts:21-30 | the batch built by a start sends to the configured monitoring endpoint |
| MonitoringState.StartMonitoring | src/core/monitoring.ts:16-37 | without a truthy endpoint the whole state is unchanged; with one monitoring becomes active on that endpoint, the ceiling is the configured per-page maximum and the full budget is available; the debug flag is kept; the ceiling invariant is preserved |
| MonitoringState.ResetMonitoring | src/core/monitoring.ts:39-41 | monitoring becomes inactive and nothing else changes (counter, ceiling and debug flag kept) |
| MonitoringState.SetDebugMode | src/core/monitoring.ts:79-81 | the debug flag takes the given value and nothing else changes |
| MonitoringState.MayReportKeepsCeiling | src/core/monitoring.ts:59-63 | when the rate limit lets a report through, raising the counter by one keeps it within the ceiling, so budget was left |
| MonitoringState.ExhaustedBudgetDenies | src/core/monitoring.ts:61 | with no budget left (including a zero ceiling) the strict less-than check refuses every report |
| MonitoringState.ResetIdempotent | src/core/monitoring.ts:39-41 | resetting twice is the same as resetting once |
| MonitoringState.RestartRestoresBudget | src/core/monitoring.ts:32-36 | reset then a successful start equals the start alone, and the counter is back to zero even after an exhausted activation |
| MonitoringState.ResetKeepsCounter | src/core/monitoring.ts:16-19 | reset followed by a start without endpoint leaves monitoring off with counter and ceiling untouched |
| MonitoringState.DebugModePersists | src/core/monitoring.ts:79-81 | setting the debug flag commutes with start and with reset, so the flag survives both |
| Guard.BuildRecord | src/core/monitoring.ts:64-70 | a record is built iff both trace computation and context formatting succeed; it is an internal, error-severity record carrying the stack trace's message and the formatted context of that trace; a trace fault is passed on, with no fallback record |
| Guard.ReportFault | src/core/monitoring.ts:58-74 | outside the rate limit nothing happens; inside it the counter rises by one whatever happens next and `add` receives the built record iff it could be built; in debug mode the inner catch logs exactly the fault of the build or of `add`, and nothing after a successful `add`; outside debug mode nothing is logged |
| Guard.Monitor | src/core/monitoring.ts:52-77 | no fault ever escapes; a normal return is passed through with no state change, record or log; a fault yields undefined, raises the counter by exactly one iff a batch is present and budget remains, and sends exactly the built internal error record then and only then; in debug mode the host fault is logged first, followed by at most the reporting fault |
| Guard.Monitored | src/core/monitoring.ts:43-49 | with a batch present the call behaves as `monitor`; without one the original method runs unwrapped, its fault propagates and nothing is recorded; normal returns are passed through either way |
| Guard.DebugModeDoesNotAffectReporting | src/core/monitoring.ts:56-75 | the debug flag does not change the caller's completion, the records sent or the next state (apart from the flag) |
| Guard.BuildFaultConsumesBudget | src/core/monitoring.ts:63-65 | when the trace or its context cannot be built, the budget unit is still consumed, nothing reaches `add`, and the caller gets undefined |
| Runs.Run | src/core/monitoring.ts:52-77 | over any sequence of guarded calls no completion is a raised fault, only the counter changes and it never decreases, and nothing is sent while inactive |
| Runs.RunBudget | src/core/monitoring.ts:59-65 | from a state within its ceiling, the counter rises by exactly min(faults, remaining budget) while active and by nothing while inactive, the ceiling still holds, and `add` is called at most that often, exactly that often when every record can be built |
| Runs.StartThenFaults | src/core/monitoring.ts:32-65 | after a successful start with ceiling N, M faults consume exactly min(M, N) budget units and cause at most (with a working trace computer exactly) min(M, N) `add` calls |
| Runs.RunSendsFirstFaults | src/core/monitoring.ts:59-70 | from an active state within its ceiling, when every record can be built, `add` receives exactly the records of the first min(faults, remaining budget) faults, in the order they were thrown, and nothing for any later fault |
| Runs.RunCompletions | src/core/monitoring.ts:53-76 | in any mix of calls, each caller whose function throws gets undefined and each caller whose function returns gets its own value |
| Runs.InactiveRunIsSilent | src/core/monitoring.ts:59-60 | while no batch is present any number of guarded faults leave the state unchanged and call `add` never |
| Runs.NormalRunIsTransparent | src/core/monitoring.ts:53-55 | calls that all return normally hand each caller its value, send and log nothing and leave the state unchanged |
| Runs.DebugLogsEveryFault | src/core/monitoring.ts:57 | in debug mode every host fault of a run appears on the console; out of it the console stays silent |
| Runs.DebugModeDoesNotAffectRun | src/core/monitoring.ts:79-88 | toggling the debug flag never changes what is sent, what callers see or the counter |
| Runs.RepeatSendsCopies | src/core/monitoring.ts:63-70 | repeating one fault whose record can be built sends one copy of that record per budget unit consumed |
| Runs.StartThenRepeat | src/core/tests/monitoring.spec.ts:146-155 | after a start, n repetitions of one fault leave monitoring active on the same debug flag with min(n, ceiling) budget used and, when the record can be built, exactly that many copies of it sent |
| Runs.FaultRepeatedly | src/core/tests/monitoring.spec.ts:146-155 | the loop of n throwing calls after a start ends in exactly the state and `add` calls of `Run` over the same calls: monitoring active, min(n, ceiling) budget used and, when the record can be built, that many copies of it sent |
| Runs.CapsTheDataSent | src/core/tests/monitoring.spec.ts:146-155 | with the test configuration's ceiling of 7, ten faulting calls after a start from any earlier state produce exactly seven `add` calls when every record can be built |

## Left out

- `Batch` and `HttpRequest` (batching, byte limits, flush timers, network delivery): the batch is kept only as present or absent with the parameters it was built from, and `add` is a function that may throw.
- `computeStackTrace` and `formatStackTraceToContext` are not part of this model: they are arbitrary functions that may throw, and the merged context is an opaque map.
- The object spread at `src/core/monitoring.ts:69` could let context keys override `entryType`, `message` or `severity`; the record keeps the context as a separate field, so such collisions are not modelled.
- `getCommonContext`, `window.location`, `navigator` and the record's `date`: browser environment and clock.
- `console.warn` in `logErrorIfDebug` is modelled as an infallible log event. A throwing console at either call, `src/core/monitoring.ts:57` or `:73`, is not modelled; neither call is inside a try block, so such a fault would escape `monitor`.
- JavaScript `this`/`arguments` forwarding, `PropertyDescriptor` mutation and the `as unknown as T` cast: a wrapped call is represented only by its outcome.
- Guard.Monitor and Guard.Monitored assume the wrapped function does not change `monitoringConfiguration`: no `startMonitoring` or `resetMonitoring` inside it and no nested guarded call that faults. In the code `monitor` reads `batch` and `sentMessageCount` after `fn` has run (`src/core/monitoring.ts:59-61`), so a function that resets monitoring and then throws reports nothing there, and a nested guarded fault inside a call that returns normally consumes budget; the model reports against the state from before the call and treats such a call as leaving the state unchanged.
- `maxMonitoringMessagesPerPage` is a natural number; an undefined, negative or fractional JavaScript number is not modelled.
- `packages/rum/webpack.config.js`: build tooling.

=== FILE: faults.dfy ===
/** Values shared by the whole model: optional values, faults, and the three
    ways a call can end (as the wrapped function ends it, as a collaborator
    ends it, and as the caller of a guarded function observes it). */
module Faults {

  /** An optional value: an absent batch, an absent endpoint. */
  datatype Option<+T> = None | Some(value: T)

  /** Anything JavaScript code can throw; only its description is kept. */
  datatype Fault = Fault(description: string)

  /** How the wrapped (host) function ends: it returns a value or it throws. */
  datatype Outcome<+V> = Returns(value: V) | Throws(fault: Fault)

  /** How a collaborator (stack-trace computer, context formatter, `batch.add`)
      ends: it produces a value or it throws. */
  datatype Try<+T> = Ok(value: T) | Failed(fault: Fault)

  /** What the caller of a guarded function observes: the wrapped function's
      value, `undefined` (a swallowed fault), or a fault that propagates. */
  datatype Completion<+V> = Value(value: V) | Undefined | Raised(fault: Fault)
}

=== FILE: monitor.dfy ===
/** The interception wrappers of src/core/monitoring.ts: `monitor`, with its
    outer try (the host fault) and inner try (the reporting path), and the
    `monitored` method decorator. A call to a wrapped function is one pure
    step from a state to the next state, the caller-visible completion, the
    records handed to `batch.add` and the faults written to the debug log. */
module Guard {
  import opened Faults
  import opened MonitoringState

  /** `entryType: 'internal'`: the tag of self-monitoring records. */
  datatype EntryType = Internal

  /** `LogLevelEnum.error`. */
  datatype Severity = Error

  /** The fields `formatStackTraceToContext` merges into a record, kept opaque. */
  type Context = map<string, string>

  /** The normalised trace `computeStackTrace` returns. */
  datatype StackTrace = StackTrace(message: string, frames: seq<string>)

  /** The object handed to `batch.add`. */
  datatype Record = Record(
    entryType: EntryType,
    message: string,
    severity: Severity,
    context: Context)

  /** The collaborators the guard calls, each of which may throw. */
  datatype Env = Env(
    computeStackTrace: Fault -> Try<StackTrace>,
    formatStackTraceToContext: StackTrace -> Try<Context>,
    add: (Batch, Record) -> Try<()>)

  /** One call of a guarded function. `addCalls` are the records passed to
      `batch.add` (including one whose `add` then throws); `logs` are the
      faults `logErrorIfDebug` writes to the console. */
  datatype Step<+V> = Step(
    state: State,
    completion: Completion<V>,
    addCalls: seq<Record>,
    logs: seq<Fault>)

  /** The inner try block's effect on the state and the outside world. */
  datatype Reporting = Reporting(state: State, addCalls: seq<Record>, logs: seq<Fault>)

  /** `logErrorIfDebug`: the fault reaches the console exactly in debug mode. */
  function LogErrorIfDebug(st: State, e: Fault): seq<Fault>
  {
    if st.debugMode then [e] else []
  }

  /** Building the record: the stack trace is computed, then its context is
      formatted while the object literal is evaluated. A fault from either
      collaborator aborts the build; there is no fallback record. */
  function BuildRecord(env: Env, e: Fault): (r: Try<Record>)
    ensures r.Ok? <==>
      env.computeStackTrace(e).Ok? &&
      env.formatStackTraceToContext(env.computeStackTrace(e).value).Ok?
    ensures r.Ok? ==>
      && r.value.entryType == Internal
      && r.value.severity == Error
      && r.value.message == env.computeStackTrace(e).value.message
      && r.value.context == env.formatStackTraceToContext(env.computeStackTrace(e).value).value
    ensures env.computeStackTrace(e).Failed? ==> r == Failed(env.computeStackTrace(e).fault)
    ensures env.computeStackTrace(e).Ok? &&
            env.formatStackTraceToContext(env.computeStackTrace(e).value).Failed? ==>
            r == Failed(env.formatStackTraceToContext(env.computeStackTrace(e).value).fault)
  {
    match env.computeStackTrace(e)
    case Failed(f) => Failed(f)
    case Ok(trace) =>
      match env.formatStackTraceToContext(trace)
      case Failed(f) => Failed(f)
      case Ok(context) => Ok(Record(Internal, trace.message, Error, context))
  }

  /** The inner try block: when the rate limit allows, the counter is raised
      BEFORE the record is built and handed to `batch.add`, so a fault on the
      way still consumes the budget; any such fault is caught and only logged. */
  function ReportFault(env: Env, st: State, e: Fault): (r: Reporting)
    ensures !MayReport(st) ==> r == Reporting(st, [], [])
    ensures MayReport(st) ==> r.state == st.(sentMessageCount := st.sentMessageCount + 1)
    ensures r.addCalls == (if MayReport(st) && BuildRecord(env, e).Ok?
                           then [BuildRecord(env, e).value] else [])
    // the inner catch logs the reporting fault, and only that, in debug mode
    ensures !st.debugMode ==> r.logs == []
    ensures st.debugMode && MayReport(st) && BuildRecord(env, e).Failed? ==>
            r.logs == [BuildRecord(env, e).fault]
    ensures st.debugMode && MayReport(st) && BuildRecord(env, e).Ok? ==>
            r.logs == (match env.add(st.batch.value, BuildRecord(env, e).value)
                       case Failed(f) => [f]
                       case Ok(_) => [])
    ensures |r.logs| <= 1
  {
    if !MayReport(st) then Reporting(st, [], [])
    else
      var st' := st.(sentMessageCount := st.sentMessageCount + 1);
      match BuildRecord(env, e)
      case Failed(f) => Reporting(st', [], LogErrorIfDebug(st, f))
      case Ok(record) =>
        match env.add(st.batch.value, record)
        case Failed(f) => Reporting(st', [record], LogErrorIfDebug(st, f))
        case Ok(_) => Reporting(st', [record], [])
  }

  /** A call of `monitor(fn)` whose `fn` ends with `call`. No fault ever
      escapes: a normal return is passed through untouched, a fault becomes
      `undefined`, is logged in debug mode and is reported under the rate limit. */
  function Monitor<V>(env: Env, st: State, call: Outcome<V>): (r: Step<V>)
    ensures !r.completion.Raised?
    ensures call.Returns? ==> r == Step(st, Value(call.value), [], [])
    ensures call.Throws? ==> r.completion == Undefined
    // only the counter can change, by at most one, and only through the rate limit
    ensures r.state.(sentMessageCount := st.sentMessageCount) == st
    ensures r.state.sentMessageCount ==
            st.sentMessageCount + (if call.Throws? && MayReport(st) then 1 else 0)
    ensures Valid(st) ==> Valid(r.state)
    // at most one record per consumed unit of budget, always an internal error record
    ensures |r.addCalls| <= r.state.sentMessageCount - st.sentMessageCount
    ensures forall record | record in r.addCalls ::
      && record.entryType == Internal
      && record.severity == Error
      && call.Throws?
      && env.computeStackTrace(call.fault).Ok?
      && record.message == env.computeStackTrace(call.fault).value.message
    ensures r.addCalls == (if call.Throws? && MayReport(st) && BuildRecord(env, call.fault).Ok?
                           then [BuildRecord(env, call.fault).value] else [])
    ensures !IsActive(st) ==> r.addCalls == []
    // in debug mode the host fault reaches the console first, followed by at most
    // the reporting fault the inner catch logs; outside debug mode nothing is logged
    ensures call.Throws? && st.debugMode ==>
            && 1 <= |r.logs| <= 2
            && r.logs[0] == call.fault
            && r.logs[1..] == ReportFault(env, st, call.fault).logs
    ensures !st.debugMode ==> r.logs == []
  {
    match call
    case Returns(v) => Step(st, Value(v), [], [])
    case Throws(e) =>
      var reporting := ReportFault(env, st, e);
      Step(reporting.state, Undefined, reporting.addCalls, LogErrorIfDebug(st, e) + reporting.logs)
  }

  /** A call of a method decorated with `@monitored`. The presence of a batch
      is checked at call time: with one the call behaves as `monitor`, without
      one the original method runs unwrapped and its fault propagates. */
  function Monitored<V>(env: Env, st: State, call: Outcome<V>): (r: Step<V>)
    ensures IsActive(st) ==> r == Monitor(env, st, call)
    ensures !IsActive(st) ==> r.state == st && r.addCalls == [] && r.logs == []
    ensures !IsActive(st) && call.Throws? ==> r.completion == Raised(call.fault)
    ensures call.Returns? ==> r.completion == Value(call.value) && r.state == st
    ensures r.completion.Raised? <==> !IsActive(st) && call.Throws?
  {
    if IsActive(st) then Monitor(env, st, call)
    else
      match call
      case Returns(v) => Step(st, Value(v), [], [])
      case Throws(e) => Step(st, Raised(e), [], [])
  }

  /** The debug flag changes only what reaches the console: the caller's
      completion, the next state (up to the flag) and the records sent are the
      same whichever way it is set. */
  lemma DebugModeDoesNotAffectReporting<V>(env: Env, st: State, call: Outcome<V>, debugMode: bool)
    ensures Monitor(env, SetDebugMode(st, debugMode), call).completion == Monitor(env, st, call).completion
    ensures Monitor(env, SetDebugMode(st, debugMode), call).addCalls == Monitor(env, st, call).addCalls
    ensures Monitor(env, SetDebugMode(st, debugMode), call).state
         == SetDebugMode(Monitor(env, st, call).state, debugMode)
  {
  }

  /** When trace computation (or context formatting) throws, the budget is
      consumed but nothing reaches `batch.add`. */
  lemma BuildFaultConsumesBudget<V>(env: Env, st: State, e: Fault)
    requires MayReport(st)
    requires BuildRecord(env, e).Failed?
    ensures Monitor<V>(env, st, Throws(e)).addCalls == []
    ensures Monitor<V>(env, st, Throws(e)).state.sentMessageCount == st.sentMessageCount + 1
    ensures Monitor<V>(env, st, Throws(e)).completion == Undefined
  {
  }
}

=== FILE: runs.dfy ===
/** Sequences of calls to functions wrapped by `monitor`, all against the one
    global record: the per-page budget, the ceiling invariant, and the fact
    that the budget counts report attempts rather than delivered records. */
module Runs {
  import opened Faults
  import opened MonitoringState
  import opened Guard

  /** The combined effect of several guarded calls made one after another. */
  datatype RunEffect<+V> = RunEffect(
    state: State,
    completions: seq<Completion<V>>,
    addCalls: seq<Record>,
    logs: seq<Fault>)

  /** Calls `monitor(fn_i)()` for each outcome in turn, threading the state:
      the run of all but the last call, followed by the last call. */
  function Run<V>(env: Env, st: State, calls: seq<Outcome<V>>): (r: RunEffect<V>)
    ensures |r.completions| == |calls|
    ensures forall i :: 0 <= i < |calls| ==> !r.completions[i].Raised?
    ensures r.state.(sentMessageCount := st.sentMessageCount) == st
    ensures st.sentMessageCount <= r.state.sentMessageCount
    ensures !IsActive(st) ==> r.addCalls == []
    decreases |calls|
  {
    if calls == [] then RunEffect(st, [], [], [])
    else
      var before := Run(env, st, calls[..|calls| - 1]);
      var step := Monitor(env, before.state, calls[|calls| - 1]);
      RunEffect(step.state, before.completions + [step.completion],
                before.addCalls + step.addCalls, before.logs + step.logs)
  }

  /** How many of the calls throw. */
  function ThrowCount<V>(calls: seq<Outcome<V>>): nat
    decreases |calls|
  {
    if calls == [] then 0
    else ThrowCount(calls[..|calls| - 1]) + (if calls[|calls| - 1].Throws? then 1 else 0)
  }

  function Min(a: nat, b: nat): nat {
    if a <= b then a else b
  }

  /** Every fault can be turned into a record: neither trace computation nor
      context formatting ever throws. */
  ghost predicate BuildsRecords(env: Env) {
    forall e :: BuildRecord(env, e).Ok?
  }

  /** The budget: starting from a state within its ceiling, the counter rises
      by exactly min(faults, remaining budget) while active and not at all
      while inactive; the ceiling holds at the end; `batch.add` is called at
      most that many times, and exactly that many times when every record
      can be built. */
  lemma {:induction false} RunBudget<V>(env: Env, st: State, calls: seq<Outcome<V>>)
    requires Valid(st)
    ensures Valid(Run(env, st, calls).state)
    ensures Run(env, st, calls).state.sentMessageCount ==
            st.sentMessageCount + (if IsActive(st) then Min(ThrowCount(calls), Remaining(st)) else 0)
    ensures |Run(env, st, calls).addCalls| <=
            Run(env, st, calls).state.sentMessageCount - st.sentMessageCount
    ensures BuildsRecords(env) ==>
            |Run(env, st, calls).addCalls| ==
            Run(env, st, calls).state.sentMessageCount - st.sentMessageCount
    decreases |calls|
  {
    if calls != [] {
      RunBudget(env, st, calls[..|calls| - 1]);
    }
  }

  /** The headline guarantee: after a successful start with ceiling N, any M
      guarded faults (interleaved with any normal returns) consume exactly
      min(M, N) units of budget and cause at most, and with a reliable
      trace computer exactly, min(M, N) calls of `batch.add`. */
  lemma {:induction false} StartThenFaults<V>(env: Env, st: State, config: Configuration, calls: seq<Outcome<V>>)
    requires HasEndpoint(config)
    ensures var t := Run(env, StartMonitoring(st, config), calls);
      && Valid(t.state)
      && t.state.sentMessageCount == Min(ThrowCount(calls), config.maxMonitoringMessagesPerPage)
      && |t.addCalls| <= Min(ThrowCount(calls), config.maxMonitoringMessagesPerPage)
      && (BuildsRecords(env) ==>
            |t.addCalls| == Min(ThrowCount(calls), config.maxMonitoringMessagesPerPage))
  {
    RunBudget(env, StartMonitoring(st, config), calls);
  }

  /** While monitoring is inactive no fault, however many, reaches `batch.add`,
      none escapes, and the state does not change. */
  lemma {:induction false} InactiveRunIsSilent<V>(env: Env, st: State, calls: seq<Outcome<V>>)
    requires !IsActive(st)
    ensures Run(env, st, calls).state == st
    ensures Run(env, st, calls).addCalls == []
    decreases |calls|
  {
    if calls != [] {
      InactiveRunIsSilent(env, st, calls[..|calls| - 1]);
    }
  }

  /** Calls that all return normally are transparent: each caller gets the
      value, nothing is sent or logged, and the state is unchanged. */
  lemma {:induction false} NormalRunIsTransparent<V>(env: Env, st: State, calls: seq<Outcome<V>>)
    requires forall i :: 0 <= i < |calls| ==> calls[i].Returns?
    ensures Run(env, st, calls).state == st
    ensures Run(env, st, calls).addCalls == [] && Run(env, st, calls).logs == []
    ensures forall i :: 0 <= i < |calls| ==> Run(env, st, calls).completions[i] == Value(calls[i].value)
    decreases |calls|
  {
    if calls != [] {
      var prefix := calls[..|calls| - 1];
      NormalRunIsTransparent(env, st, prefix);
      var r := Run(env, st, calls);
      assert r.completions == Run(env, st, prefix).completions + [Value(calls[|calls| - 1].value)];
      forall i | 0 <= i < |calls|
        ensures r.completions[i] == Value(calls[i].value)
      {
        if i < |prefix| {
          assert calls[i] == prefix[i];
        }
      }
    }
  }

  /** What each caller sees in a mixed run: `undefined` for every call that
      throws, its own value for every call that returns. */
  lemma {:induction false} RunCompletions<V>(env: Env, st: State, calls: seq<Outcome<V>>)
    ensures forall i :: 0 <= i < |calls| ==>
      Run(env, st, calls).completions[i] ==
        (if calls[i].Throws? then Undefined else Value(calls[i].value))
    decreases |calls|
  {
    if calls != [] {
      var prefix := calls[..|calls| - 1];
      RunCompletions(env, st, prefix);
      var r := Run(env, st, calls);
      var before := Run(env, st, prefix);
      var step := Monitor(env, before.state, calls[|calls| - 1]);
      assert r.completions == before.completions + [step.completion];
      forall i | 0 <= i < |calls|
        ensures r.completions[i] == (if calls[i].Throws? then Undefined else Value(calls[i].value))
      {
        if i < |prefix| {
          assert calls[i] == prefix[i];
        }
      }
    }
  }

  /** The faults of the throwing calls, in call order. */
  function ThrownFaults<V>(calls: seq<Outcome<V>>): seq<Fault>
    decreases |calls|
  {
    if calls == [] then []
    else ThrownFaults(calls[..|calls| - 1]) +
         (if calls[|calls| - 1].Throws? then [calls[|calls| - 1].fault] else [])
  }

  /** Which records are sent: from an active state within its ceiling, when
      every record can be built, `batch.add` receives the records of the FIRST
      min(faults, remaining budget) faults, in the order they were thrown;
      every later fault sends nothing. */
  lemma {:induction false} RunSendsFirstFaults<V>(env: Env, st: State, calls: seq<Outcome<V>>)
    requires Valid(st) && IsActive(st) && BuildsRecords(env)
    ensures |ThrownFaults(calls)| == ThrowCount(calls)
    ensures var k := Min(ThrowCount(calls), Remaining(st));
      && |Run(env, st, calls).addCalls| == k
      && forall i :: 0 <= i < k ==>
           Run(env, st, calls).addCalls[i] == BuildRecord(env, ThrownFaults(calls)[i]).value
    decreases |calls|
  {
    if calls != [] {
      var prefix := calls[..|calls| - 1];
      var last := calls[|calls| - 1];
      RunSendsFirstFaults(env, st, prefix);
      RunBudget(env, st, prefix);
      var before := Run(env, st, prefix);
      var tf := ThrownFaults(prefix);
      var k := Min(ThrowCount(prefix), Remaining(st));
      var r := Run(env, st, calls);
      var step := Monitor(env, before.state, last);
      assert r.addCalls == before.addCalls + step.addCalls;
      var tf' := ThrownFaults(calls);
      if last.Throws? && MayReport(before.state) {
        assert tf' == tf + [last.fault];
        assert k == |tf| && ThrowCount(calls) == k + 1 && k + 1 <= Remaining(st);
        assert step.addCalls == [BuildRecord(env, last.fault).value];
        forall i | 0 <= i < k + 1
          ensures r.addCalls[i] == BuildRecord(env, tf'[i]).value
        {
          if i < k {
            assert r.addCalls[i] == before.addCalls[i] && tf'[i] == tf[i];
          }
        }
      } else {
        assert tf' == tf + (if last.Throws? then [last.fault] else []);
        assert step.addCalls == [];
        assert Min(ThrowCount(calls), Remaining(st)) == k;
        forall i | 0 <= i < k
          ensures r.addCalls[i] == BuildRecord(env, tf'[i]).value
        {
          assert r.addCalls[i] == before.addCalls[i] && tf'[i] == tf[i];
        }
      }
    }
  }

  /** In debug mode every host fault reaches the console; otherwise the console
      stays silent. */
  lemma {:induction false} DebugLogsEveryFault<V>(env: Env, st: State, calls: seq<Outcome<V>>)
    ensures st.debugMode ==>
      forall i | 0 <= i < |calls| && calls[i].Throws? :: calls[i].fault in Run(env, st, calls).logs
    ensures !st.debugMode ==> Run(env, st, calls).logs == []
    decreases |calls|
  {
    if calls != [] {
      var prefix := calls[..|calls| - 1];
      var before := Run(env, st, prefix);
      var step := Monitor(env, before.state, calls[|calls| - 1]);
      DebugLogsEveryFault(env, st, prefix);
      if st.debugMode {
        forall i | 0 <= i < |calls| && calls[i].Throws?
          ensures calls[i].fault in Run(env, st, calls).logs
        {
          if i == |prefix| {
            assert step.logs[0] == calls[i].fault;
          } else {
            assert prefix[i] == calls[i];
            assert calls[i].fault in before.logs;
          }
        }
      }
    }
  }

  /** Toggling the debug flag never changes what is sent or what the callers see. */
  lemma {:induction false} DebugModeDoesNotAffectRun<V>(
    env: Env, st: State, calls: seq<Outcome<V>>, debugMode: bool)
    ensures Run(env, SetDebugMode(st, debugMode), calls).addCalls == Run(env, st, calls).addCalls
    ensures Run(env, SetDebugMode(st, debugMode), calls).completions == Run(env, st, calls).completions
    ensures Run(env, SetDebugMode(st, debugMode), calls).state
         == SetDebugMode(Run(env, st, calls).state, debugMode)
    decreases |calls|
  {
    if calls != [] {
      var prefix := calls[..|calls| - 1];
      DebugModeDoesNotAffectRun(env, st, prefix, debugMode);
      DebugModeDoesNotAffectReporting(env, Run(env, st, prefix).state, calls[|calls| - 1], debugMode);
    }
  }

  /** `n` calls that all throw `fault`. */
  function Repeat(fault: Fault, n: nat): seq<Outcome<()>>
  {
    seq(n, _ => Throws(fault))
  }

  /** Repeating one fault sends one copy of its record per unit of budget
      consumed, when the record can be built. */
  lemma {:induction false} RepeatSendsCopies(env: Env, start: State, fault: Fault, n: nat)
    requires BuildRecord(env, fault).Ok?
    ensures Run(env, start, Repeat(fault, n)).addCalls ==
            seq(Run(env, start, Repeat(fault, n)).state.sentMessageCount - start.sentMessageCount,
                _ => BuildRecord(env, fault).value)
  {
    if n == 0 {
      assert Repeat(fault, 0) == [];
    } else {
      var before := Run(env, start, Repeat(fault, n - 1));
      assert Repeat(fault, n)[..n - 1] == Repeat(fault, n - 1);
      RepeatSendsCopies(env, start, fault, n - 1);
      if MayReport(before.state) {
        Copies(BuildRecord(env, fault).value, before.state.sentMessageCount - start.sentMessageCount);
      }
    }
  }

  /** The capped scenario as a loop: start monitoring, then call `n` functions
      that all throw `fault`, one at a time against the global record. The
      loop ends exactly where `Run` over the same calls ends; it uses
      min(n, ceiling) units of budget and, when the record can be built,
      sends that many copies of it. */
  method FaultRepeatedly(env: Env, st0: State, config: Configuration, fault: Fault, n: nat)
    returns (st: State, addCalls: seq<Record>)
    requires HasEndpoint(config)
    ensures st == Run(env, StartMonitoring(st0, config), Repeat(fault, n)).state
    ensures addCalls == Run(env, StartMonitoring(st0, config), Repeat(fault, n)).addCalls
    ensures IsActive(st) && Valid(st)
    ensures st.sentMessageCount == Min(n, config.maxMonitoringMessagesPerPage)
    ensures |addCalls| <= st.sentMessageCount
    ensures BuildRecord(env, fault).Ok? ==> addCalls == seq(st.sentMessageCount, _ => BuildRecord(env, fault).value)
    ensures st.debugMode == st0.debugMode
  {
    var start := StartMonitoring(st0, config);
    st := start;
    addCalls := [];
    var i := 0;
    while i < n
      invariant 0 <= i <= n
      invariant st == Run(env, start, Repeat(fault, i)).state
      invariant addCalls == Run(env, start, Repeat(fault, i)).addCalls
    {
      var step := Monitor<()>(env, st, Throws(fault));
      RepeatOneMore(env, start, fault, i);
      st := step.state;
      addCalls := addCalls + step.addCalls;
      i := i + 1;
    }
    StartThenRepeat(env, st0, config, fault, n);
  }

  /** One more repetition of a fault is one more guarded call after the run
      of the repetitions so far. */
  lemma RepeatOneMore(env: Env, start: State, fault: Fault, i: nat)
    ensures var before := Run(env, start, Repeat(fault, i));
      var step := Monitor<()>(env, before.state, Throws(fault));
      && Run(env, start, Repeat(fault, i + 1)).state == step.state
      && Run(env, start, Repeat(fault, i + 1)).addCalls == before.addCalls + step.addCalls
  {
    assert Repeat(fault, i + 1)[..i] == Repeat(fault, i);
  }

  /** What `n` repetitions of one fault after a start amount to: monitoring
      stays active on the same debug flag, min(n, ceiling) units of budget are
      used and, when the record can be built, that many copies are sent. */
  lemma StartThenRepeat(env: Env, st0: State, config: Configuration, fault: Fault, n: nat)
    requires HasEndpoint(config)
    ensures var t := Run(env, StartMonitoring(st0, config), Repeat(fault, n));
      && IsActive(t.state) && Valid(t.state)
      && t.state.debugMode == st0.debugMode
      && t.state.sentMessageCount == Min(n, config.maxMonitoringMessagesPerPage)
      && |t.addCalls| <= t.state.sentMessageCount
      && (BuildRecord(env, fault).Ok? ==>
            t.addCalls == seq(t.state.sentMessageCount, _ => BuildRecord(env, fault).value))
  {
    var start := StartMonitoring(st0, config);
    AllThrow(Repeat(fault, n));
    RunBudget(env, start, Repeat(fault, n));
    if BuildRecord(env, fault).Ok? {
      RepeatSendsCopies(env, start, fault, n);
    }
  }

  /** One more copy of a record extends a run of copies. */
  lemma Copies<T>(x: T, k: nat)
    ensures seq(k, _ => x) + [x] == seq(k + 1, _ => x)
  {
  }

  /** The cap from the test suite: with a ceiling of 7 and ten faulting calls,
      `batch.add` is called exactly seven times, whatever earlier starts and
      resets left in the global record. */
  lemma CapsTheDataSent<V>(env: Env, st0: State, config: Configuration, calls: seq<Outcome<V>>)
    requires HasEndpoint(config) && config.maxMonitoringMessagesPerPage == 7
    requires |calls| == 10 && forall i :: 0 <= i < |calls| ==> calls[i].Throws?
    requires BuildsRecords(env)
    ensures |Run(env, StartMonitoring(st0, config), calls).addCalls| == 7
  {
    assert ThrowCount(calls) == 10 by { AllThrow(calls); }
    StartThenFaults(env, st0, config, calls);
  }

  lemma {:induction false} AllThrow<V>(calls: seq<Outcome<V>>)
    requires forall i :: 0 <= i < |calls| ==> calls[i].Throws?
    ensures ThrowCount(calls) == |calls|
    decreases |calls|
  {
    if calls != [] {
      AllThrow(calls[..|calls| - 1]);
    }
  }
}

=== FILE: state.dfy ===
/** The global `monitoringConfiguration` record of src/core/monitoring.ts, its
    three lifecycle operations and the per-page rate limit. */
module MonitoringState {
  import opened Faults

  /** The transport handle built by `startMonitoring`. Batching, flushing and
      delivery are not modelled; only the parameters it was built from are kept. */
  datatype Batch = Batch(
    endpoint: string,
    bytesLimit: int,
    maxSize: int,
    maxMessageSize: int,
    flushTimeout: int)

  /** The configuration fields `startMonitoring` reads. */
  datatype Configuration = Configuration(
    monitoringEndpoint: Option<string>,
    batchBytesLimit: int,
    maxBatchSize: int,
    maxMessageSize: int,
    flushTimeout: int,
    maxMonitoringMessagesPerPage: nat)

  /** The global monitoring record. An unset `debugMode` is falsy, so it is `false` here. */
  datatype State = State(
    batch: Option<Batch>,
    debugMode: bool,
    maxMessagesPerPage: nat,
    sentMessageCount: nat)

  /** The record as the module initialises it: no batch, no budget, nothing sent. */
  const Initial: State := State(None, false, 0, 0)

  /** Monitoring is active exactly while a batch is present. */
  predicate IsActive(st: State) {
    st.batch.Some?
  }

  /** The ceiling is never exceeded. */
  predicate Valid(st: State) {
    st.sentMessageCount <= st.maxMessagesPerPage
  }

  /** Report attempts still allowed on this page. */
  function Remaining(st: State): nat
    requires Valid(st)
  {
    st.maxMessagesPerPage - st.sentMessageCount
  }

  /** JavaScript truthiness of the endpoint: absent and empty both disable monitoring. */
  predicate HasEndpoint(config: Configuration) {
    config.monitoringEndpoint.Some? && config.monitoringEndpoint.value != ""
  }

  function NewBatch(config: Configuration): (b: Batch)
    requires HasEndpoint(config)
    ensures b.endpoint == config.monitoringEndpoint.value
  {
    Batch(config.monitoringEndpoint.value, config.batchBytesLimit, config.maxBatchSize,
          config.maxMessageSize, config.flushTimeout)
  }

  lemma InitialIsValid()
    ensures Valid(Initial) && !IsActive(Initial) && !Initial.debugMode
  {
  }

  /** `startMonitoring`: without a (truthy) endpoint nothing at all changes;
      otherwise a fresh batch replaces any previous one, the ceiling is taken
      from the configuration and the full budget is restored. */
  function StartMonitoring(st: State, config: Configuration): (r: State)
    ensures !HasEndpoint(config) ==> r == st
    ensures HasEndpoint(config) ==>
      && IsActive(r)
      && r.batch.value.endpoint == config.monitoringEndpoint.value
      && Valid(r)
      && Remaining(r) == config.maxMonitoringMessagesPerPage
      && r.maxMessagesPerPage == config.maxMonitoringMessagesPerPage
    ensures r.debugMode == st.debugMode
    ensures Valid(st) ==> Valid(r)
  {
    if !HasEndpoint(config) then st
    else st.(batch := Some(NewBatch(config)),
             maxMessagesPerPage := config.maxMonitoringMessagesPerPage,
             sentMessageCount := 0)
  }

  /** `resetMonitoring`: drops the batch and nothing else; in particular the
      counter survives until the next successful start. */
  function ResetMonitoring(st: State): (r: State)
    ensures !IsActive(r)
    ensures r.(batch := st.batch) == st
  {
    st.(batch := None)
  }

  /** `setDebugMode`: changes the debug flag and nothing else. */
  function SetDebugMode(st: State, debugMode: bool): (r: State)
    ensures r.debugMode == debugMode
    ensures r.(debugMode := st.debugMode) == st
  {
    st.(debugMode := debugMode)
  }

  /** The rate limit of `monitor`: a record may be attempted only while a batch
      is present and strictly fewer than the ceiling have been attempted. */
  predicate MayReport(st: State) {
    IsActive(st) && st.sentMessageCount < st.maxMessagesPerPage
  }

  /** Consuming one unit of budget when the rate limit allows it keeps the ceiling. */
  lemma MayReportKeepsCeiling(st: State)
    requires MayReport(st)
    ensures Valid(st.(sentMessageCount := st.sentMessageCount + 1))
    ensures Valid(st) && Remaining(st) > 0
  {
  }

  /** A zero ceiling, or an exhausted budget, never lets a record through. */
  lemma ExhaustedBudgetDenies(st: State)
    requires Valid(st) && Remaining(st) == 0
    ensures !MayReport(st)
  {
  }

  /** Deactivating an inactive (or already reset) state is a no-op. */
  lemma ResetIdempotent(st: State)
    ensures ResetMonitoring(ResetMonitoring(st)) == ResetMonitoring(st)
  {
  }

  /** A successful start overrides whatever a reset left behind: deactivating
      and reactivating restores the full budget even after exhaustion. */
  lemma RestartRestoresBudget(st: State, config: Configuration)
    requires HasEndpoint(config)
    ensures StartMonitoring(ResetMonitoring(st), config) == StartMonitoring(st, config)
    ensures StartMonitoring(ResetMonitoring(st), config).sentMessageCount == 0
  {
  }

  /** Reset followed by a start without endpoint leaves monitoring off and the
      counter where it was: only a successful start resets it. */
  lemma ResetKeepsCounter(st: State, config: Configuration)
    requires !HasEndpoint(config)
    ensures !IsActive(StartMonitoring(ResetMonitoring(st), config))
    ensures StartMonitoring(ResetMonitoring(st), config).sentMessageCount == st.sentMessageCount
    ensures StartMonitoring(ResetMonitoring(st), config).maxMessagesPerPage == st.maxMessagesPerPage
  {
  }

  /** The debug flag is operator-controlled: it persists across start and
      reset, and setting it commutes with both. */
  lemma DebugModePersists(st: State, config: Configuration, debugMode: bool)
    ensures StartMonitoring(SetDebugMode(st, debugMode), config)
         == SetDebugMode(StartMonitoring(st, config), debugMode)
    ensures ResetMonitoring(SetDebugMode(st, debugMode))
         == SetDebugMode(ResetMonitoring(st), debugMode)
    ensures StartMonitoring(SetDebugMode(st, debugMode), config).debugMode == debugMode
  {
  }
}
